=== FILE: README.md ===
# Drag-and-collect and exploration-scene engine, modelled in Dafny

`scrypt.js` drives two mechanics of one browser page:

- **Drag and collect.** The player drags images into a bag. A mouse or touch press
  starts a drag session and records the grab offset. A move places the image at the
  pointer minus that offset, clamped into the viewport. A release inside the bag's
  rectangle, grown by a 50-pixel tolerance, removes the image. A release elsewhere puts
  the image back. When no image is left, a completion effect is scheduled.
- **Exploration scene.** Every animation frame moves the player by 10 pixels per held
  direction (either of its two keys: W/A/S/D or the Russian-layout Ц/Ф/Ы/В, in either
  case) and clamps it into the game area. It then runs the collision checks in a fixed order:
  - picking up the pink mouse, by strict box overlap;
  - the graymouse trigger, which needs the pink mouse and a per-axis distance below 100;
  - the poster, date and ale triggers, each with a per-axis distance below 150.

  Each trigger sets a latch that is never reset and shows its image. Every trigger but the
  poster also plays a sound.

The model is functional. Page state is an immutable record, and each event handler is a
pure transition function. Properties that span many events are lemmas over sequences of
events.

| file | module | what |
|---|---|---|
| `options.dfy` | `Options` | `Option`: null, an empty style string, or an absent element |
| `geometry.dfy` | `Geometry` | clamp, drop-zone test, per-axis proximity, box overlap |
| `drag_collect.dfy` | `DragCollect` | drag session, live image set, completion scheduling |
| `keys.dfy` | `Keys` | lower-casing, key map, direction bindings |
| `scene.dfy` | `Scene` | movement, pickup, triggers, frames and event runs |

Modelling choices:

- Pixels are integers. The viewport size and the bag's rectangle are passed in with the
  pointer event that reads them. The game area, the player's sizes and the scene objects'
  corners are passed in with each frame. Each draggable image's place in the page flow
  and its size are part of the state, fixed when the page loads.
- Inline styles are abstract fields. `None` stands for the empty string.
- The live image set is a map from image identity to image. Grabbing an image no longer
  in the document takes the pointer itself as the offset, because a detached element
  reports an all-zero bounding rectangle. A move or release of such an image changes
  nothing in the model. The source writes styles on the detached element, which nothing
  reads.
- Starting an effect is recorded in an ordered log, `fired`, instead of being performed.
- Scheduling the completion effect is recorded as a counter, `completions`.
- The scene starts with the pink mouse shown (no inline `display: none`), the player at
  (0, 1700) and no key held.

Three behaviours of `scrypt.js` worth knowing:

- `startDragging` has no guard against starting while a drag is already active. A second
  grab overwrites the session. `DragCollect.SecondGrabStrandsFirst` shows that the first
  image is then left with its lifted style.
- A release outside the bag writes opacity `1`; it does not clear opacity. `AtRest`
  therefore accepts either an unset opacity or 100 %.
- The drop-zone bounds are inclusive, so a release exactly 50 pixels beyond an edge
  still collects the image.

## Model

| member | source | states |
|---|---|---|
| Geometry.Clamp | scrypt.js:151-152 | the result is v clamped into [lo, hi] case by case: lo when v is below, hi when v is above a non-empty range, v itself inside, and lo whenever hi < lo |
| Geometry.ClampedToIsUnique | scrypt.js:288-289 | the case-by-case clamp characterisation determines the clamped value uniquely |
| Geometry.InDropZone | scrypt.js:15-25 | a point hits the bag exactly when left-50 <= x <= right+50 and top-50 <= y <= bottom+50, bounds inclusive |
| Geometry.DropToleranceReach | scrypt.js:17-24 | every point within 50 pixels per axis of the bag is accepted; a point 51 pixels beyond any of the four edges is refused |
| Geometry.NearIsOpenSquare | scrypt.js:334-335 | proximity is the open square of half-side t around the object's corner, strict on both axes |
| Geometry.EuclideanImpliesNear | scrypt.js:345-346 | every point strictly inside the Euclidean disc of radius t passes the per-axis test |
| Geometry.NearIsNotEuclidean | scrypt.js:334-335 | the per-axis test accepts (99, 99) at threshold 100 although it lies outside the radius-100 disc |
| Geometry.OverlapIffSharedPixel | scrypt.js:320-323 | for boxes of positive size, the strict four-sided overlap test holds exactly when the boxes share a pixel |
| DragCollect.StartDragging | scrypt.js:96-125 | the session becomes active on the grabbed image; the offset is the pointer minus the image's reported top-left corner, or the pointer itself for a detached image; the image gets opacity 0.7, cursor grabbing, fixed position and z-index 1000, keeping its offsets, flow position and size; every other image is unchanged; no idle check |
| DragCollect.MoveDraggedItem | scrypt.js:128-156 | with no active drag nothing changes; otherwise only the dragged image's left/top change (its other styles, flow position and size are kept), each the pointer minus the offset clamped into [0, viewport - size], hence >= 0 and <= the bound when it is non-negative |
| DragCollect.StopDragging | scrypt.js:159-192 | with no active drag nothing changes; otherwise the session ends with no current image. A release in the zone removes exactly that image, shrinks the set by one and schedules completion iff none remain. A release outside keeps every image, puts the dragged one at rest with opacity 1, keeping its flow position and size |
| DragCollect.CompletionsScheduled | scrypt.js:86-93 | the completion check schedules at most one effect, and one exactly when the remaining count is zero |
| DragCollect.CompletionExactlyOnce | scrypt.js:175-180 | from page load, any event sequence schedules completion at most once, and once exactly when the page started with images and none remains |
| DragCollect.RunStaysConsistent | scrypt.js:159-191 | over any event sequence, a drag is in progress exactly when there is a current image |
| DragCollect.ItemsOnlyLeave | scrypt.js:175-189 | over any event sequence, images only leave the live set, and their flow positions and sizes never change |
| DragCollect.GrabAndReleaseOutside | scrypt.js:181-189 | grabbing an at-rest image and releasing it at the same point outside the bag leaves it at rest at its original place, even when another drag was in progress; the session ends; no other image changes |
| DragCollect.MoveAtGrabPoint | scrypt.js:144-152 | a move at the grab point puts the image back at its own top-left corner, clamped into the viewport; inside the viewport the image does not move |
| DragCollect.SettledWhileOneGrabAtATime | scrypt.js:183-188 | while no grab happens during an active drag, every image other than the dragged one stays at rest |
| DragCollect.SecondGrabStrandsFirst | scrypt.js:96-104 | grabbing a second image during a drag makes it current and leaves the first image lifted, not at rest |
| Keys.Lower | scrypt.js:261 | lower-casing keeps the length and maps each character independently |
| Keys.KeyDown | scrypt.js:260-262 | after a keydown the lower-cased key is held and every other key name is as before |
| Keys.KeyUp | scrypt.js:264-266 | after a keyup the lower-cased key is released and every other key name is as before |
| Keys.KeyEventsIgnoreCase | scrypt.js:261 | a key event and its lower-cased spelling update the key map identically |
| Keys.BindingsEquivalent | scrypt.js:272-283 | pressing a direction's Latin key or its Cyrillic key leaves exactly the same directions held |
| Keys.UpperCaseBindings | scrypt.js:272-283 | upper-case W/S/A/D and Ц/Ы/Ф/В hold the same directions as their lower-case forms |
| Keys.OtherBindingKeepsHeld | scrypt.js:272-283 | releasing either binding of a direction leaves the direction held exactly when the other binding is still pressed |
| Scene.Delta | scrypt.js:272-283 | a per-axis step is +speed iff only the positive direction is held, -speed iff only the negative one is held, and 0 iff both or neither are held |
| Scene.Move | scrypt.js:268-289 | each coordinate is the old one plus the step, clamped into [0, area - player]; it is >= 0 and within the bound whenever the bound is non-negative |
| Scene.DiagonalNotNormalised | scrypt.js:272-283 | holding up and right moves a full 10 pixels on both axes |
| Scene.OppositesCancel | scrypt.js:278-283 | holding left and right together leaves x unchanged |
| Scene.Pickup | scrypt.js:317-328 | the pink mouse is taken exactly when it is present, still shown and strictly overlaps the player; it is then hidden and the player has it |
| Scene.Try | scrypt.js:330-373 | a trigger check sets the latch and starts the effect iff the object is present, not yet latched, its prerequisite holds and the player is near; otherwise nothing changes |
| Scene.TriesInOrder | scrypt.js:330-373 | the four trigger checks in order add exactly the triggers that fire against the post-pickup state, and log them in checking order |
| Scene.CheckCollisions | scrypt.js:300-374 | the player has the pink mouse iff they had it or can pick it up now. A trigger fires in this frame iff it was unlatched, its object is present and near, and (graymouse only) the pink mouse is held, counting a pickup in the same frame. Latches only grow. Effects start in checking order |
| Scene.EffectOf | scrypt.js:376-420 | each trigger's effect hides after 5000-7000 ms; only the poster trigger plays no sound |
| Scene.ShownImagesDistinct | scrypt.js:376-420 | in a sound state, the images shown by the started effects are pairwise distinct, so each effect image is shown at most once |
| Scene.Frame | scrypt.js:268-298 | after a frame the player is in [0, area - player] on each axis; latches and the pink mouse are never lost; the graymouse only fires with the pink mouse in hand |
| Scene.PickupUnlocksSameFrame | scrypt.js:317-339 | when the pickup and the graymouse condition both hold in one frame, both happen in that frame |
| Scene.LatchesNeverCleared | scrypt.js:376-420 | over any event sequence latches only grow and the pink mouse is never lost |
| Scene.EffectsFireAtMostOnce | scrypt.js:330-420 | over any event sequence from a sound state, each effect has started at most once, the started effects are exactly the latched triggers, and the graymouse has fired only with the pink mouse |
| Scene.StartIsSound | scrypt.js:246-258 | the scene's initial state has no latches, no effects and no pink mouse, and is sound |
| Scene.StaysInArea | scrypt.js:285-289 | after any event sequence ending with a frame, the player lies within that frame's game area |
| Scene.HoldRight | scrypt.js:281-289 | holding only right for n frames from inside the area gives x = min(x0 + 10n, area - player) |

## Left out

- `showCompletionImage` (scrypt.js:27-84) is left out. It creates the overlay, injects
  CSS keyframes and a resize listener, which is presentation only. The 100 ms delay before
  it runs is left out too; the model records only that completion was scheduled.
- Audio (`pickupSound.play`, `playSound`) is left out. It is fire-and-forget.
  - A rejected `pickupSound.play()` is caught and logged (scrypt.js:101).
  - `playSound` catches only synchronous errors (scrypt.js:227-231). A rejected
    `sound.play()` promise (scrypt.js:230) becomes an unhandled rejection.
  - Neither case changes the modelled state or stops the frame loop.
- Auto-hide timers (5000-7000 ms) are left out. Their durations are kept as data in
  `Scene.EffectOf`.
- The `requestAnimationFrame` loop never terminates. It is modelled as one `Scene.Frame`,
  with lemmas over finite event sequences.
- Extracting coordinates from mouse and touch events (`touches[0]`,
  `changedTouches[0]`) is left out. Events carry an already-extracted point.
- `preventDefault` calls and the `dragstart` suppression are left out. They have no
  effect on the state.
- Floating-point pixel values and scroll offsets are left out. All coordinates are
  integers.
- Page reflow is not modelled. An image's flow position and size are taken as fixed at
  load. In the browser, removing an image (scrypt.js:178) or fixing one in place
  (scrypt.js:123) can move the others. Their reported rectangle (scrypt.js:106) and size
  (scrypt.js:148-149) would then change. In the model they do not.
- The unused `oldX`/`oldY` variables of `movePlayer` are left out.
- The effect images (`mouses`, `ticket`, `happy`, `freddy`) are assumed to be on the
  page. If one were missing, the source would throw after setting the latch and stop the
  frame loop. The model does not represent that failure.
- The bag, the player and the game area are assumed to be on the page. Without the bag,
  `stopDragging` would clear `isDragging` (scrypt.js:162) and then throw in
  `isInDropZone` (scrypt.js:16), leaving `currentDraggedItem` set.
- Keys.Lower: models `toLowerCase` only for the Latin capitals A-Z and the Cyrillic
  capitals U+0400-U+042F. Every other character is left unchanged. Only the eight
  bindings and their capitals matter to the scene.

=== FILE: drag_collect.dfy ===
/** The drag-and-collect mini-game of scrypt.js (lines 9-213): one drag
    session at a time over a live set of draggable images, a bag that accepts
    drops within a 50-pixel tolerance, and a completion effect scheduled when
    the last image has been collected.

    The page is reduced to what the handlers read and write: each live image's
    layout position, size and inline style overrides; the viewport size and
    the bag's rectangle arrive with the pointer events that read them. */
module DragCollect {
  import opened Options
  import opened Geometry

  /** Identifies one draggable image element. */
  type ItemId = nat

  datatype Cursor = Grab | Grabbing

  /** The inline style overrides the handlers write on an image. `None` is
      the empty string, i.e. no override; opacity is in percent. */
  datatype Style = Style(
    opacity: Option<nat>,
    cursor: Cursor,
    fixed: bool,
    zIndex: Option<int>,
    left: Option<int>,
    top: Option<int>)

  /** Opacity of an image while it is being dragged (0.7). */
  const LiftedOpacity: nat := 70
  /** Opacity written when an image is returned (1). */
  const FullOpacity: nat := 100
  /** Stacking order of an image while it is being dragged. */
  const LiftedZIndex: int := 1000

  /** Every draggable image gets only a `grab` cursor when the page loads. */
  const InitialStyle: Style := Style(None, Grab, false, None, None, None)

  /** An image that shows at its normal place in the page flow: no position,
      offset or stacking override, a `grab` cursor, and full opacity (either
      left unset or written as 1). */
  predicate AtRest(s: Style) {
    && (s.opacity == None || s.opacity == Some(FullOpacity))
    && s.cursor == Grab
    && !s.fixed
    && s.zIndex == None
    && s.left == None
    && s.top == None
  }

  /** A live draggable image: where the page flow puts it, its size, and its
      inline style overrides. */
  datatype Item = Item(layout: Point, width: nat, height: nat, style: Style)

  /** The drag session: the module-level variables `isDragging`,
      `currentDraggedItem`, `offsetX` and `offsetY`. */
  datatype Session = Session(dragging: bool, current: Option<ItemId>, offsetX: int, offsetY: int)

  /** The whole collect game: the images still in the document, the session,
      and how many completion effects have been scheduled. */
  datatype Game = Game(items: map<ItemId, Item>, session: Session, completions: nat)

  /** The state when the page has loaded: nothing dragged, nothing scheduled. */
  predicate Initial(g: Game) {
    && g.session == Session(false, None, 0, 0)
    && g.completions == 0
    && forall id :: id in g.items ==> g.items[id].style == InitialStyle
  }

  /** Both handlers that act on the session first check that a drag is in
      progress AND that there is a current image. */
  predicate Active(g: Game) {
    g.session.dragging && g.session.current.Some?
  }

  /** The top-left corner the image's bounding rectangle reports: a fixed
      image with an offset override sits at that offset, any other image at
      its place in the page flow. */
  function Origin(it: Item): Point {
    if it.style.fixed then
      Point(it.style.left.GetOr(it.layout.x), it.style.top.GetOr(it.layout.y))
    else
      it.layout
  }

  /** The look of an image being dragged. */
  function Lift(it: Item): (r: Item)
    ensures !AtRest(r.style)
    ensures r.layout == it.layout && r.width == it.width && r.height == it.height
  {
    it.(style := it.style.(opacity := Some(LiftedOpacity), cursor := Grabbing,
                           fixed := true, zIndex := Some(LiftedZIndex)))
  }

  /** The look of an image dropped outside the bag: every override cleared,
      the cursor back to `grab`, opacity written as 1. */
  function PutBack(it: Item): (r: Item)
    ensures AtRest(r.style)
    ensures r.layout == it.layout && r.width == it.width && r.height == it.height
    ensures Origin(r) == it.layout
  {
    it.(style := Style(Some(FullOpacity), Grab, false, None, None, None))
  }

  /** `startDragging`: records the grab point relative to the image's
      top-left corner and lifts the image. There is no check that the session
      is idle: a second grab simply overwrites the session. An image no longer
      in the document reports an all-zero rectangle. */
  function StartDragging(g: Game, id: ItemId, p: Point): (r: Game)
    ensures r.session.dragging && r.session.current == Some(id)
    ensures id in g.items ==>
              Point(p.x - r.session.offsetX, p.y - r.session.offsetY) == Origin(g.items[id])
    ensures id !in g.items ==> r.session.offsetX == p.x && r.session.offsetY == p.y
    ensures r.items.Keys == g.items.Keys
    ensures forall other :: other in g.items && other != id ==> r.items[other] == g.items[other]
    ensures id in g.items ==>
              var s := r.items[id].style;
              && s.opacity == Some(LiftedOpacity) && s.cursor == Grabbing
              && s.fixed && s.zIndex == Some(LiftedZIndex)
              && s.left == g.items[id].style.left && s.top == g.items[id].style.top
              && r.items[id] == g.items[id].(style := s)
    ensures r.completions == g.completions
  {
    var corner := if id in g.items then Origin(g.items[id]) else Point(0, 0);
    var items := if id in g.items then g.items[id := Lift(g.items[id])] else g.items;
    g.(items := items, session := Session(true, Some(id), p.x - corner.x, p.y - corner.y))
  }

  /** `moveDraggedItem`: while a drag is active, places the image at the
      pointer minus the grab offset, clamped on each axis to
      `[0, viewport - image size]`; otherwise nothing happens. */
  function MoveDraggedItem(g: Game, p: Point, viewW: int, viewH: int): (r: Game)
    ensures !Active(g) ==> r == g
    ensures r.session == g.session && r.completions == g.completions
    ensures r.items.Keys == g.items.Keys
    ensures forall other :: other in g.items && Some(other) != g.session.current ==>
              r.items[other] == g.items[other]
    ensures Active(g) && g.session.current.value in g.items ==>
              var id := g.session.current.value;
              var it, s := g.items[id], r.items[id].style;
              && s.left.Some? && s.top.Some?
              && ClampedTo(s.left.value, p.x - g.session.offsetX, 0, viewW - it.width)
              && ClampedTo(s.top.value, p.y - g.session.offsetY, 0, viewH - it.height)
              && s == it.style.(left := s.left, top := s.top)
              && r.items[id] == it.(style := s)
  {
    if !Active(g) || g.session.current.value !in g.items then g
    else
      var id := g.session.current.value;
      var it := g.items[id];
      var left := Clamp(p.x - g.session.offsetX, 0, viewW - it.width);
      var top := Clamp(p.y - g.session.offsetY, 0, viewH - it.height);
      g.(items := g.items[id := it.(style := it.style.(left := Some(left), top := Some(top)))])
  }

  /** `stopDragging`: while a drag is active, a release inside the bag's
      tolerance zone removes the image from the document and runs the
      completion check, which schedules the completion effect exactly when no
      image remains; a release elsewhere puts the image back. Either way the
      session ends. The offsets are left as they were. */
  function StopDragging(g: Game, p: Point, zone: Rect): (r: Game)
    ensures !Active(g) ==> r == g
    ensures Active(g) ==>
              && !r.session.dragging && r.session.current == None
              && r.session.offsetX == g.session.offsetX && r.session.offsetY == g.session.offsetY
    ensures Active(g) && InDropZone(zone, p) && g.session.current.value in g.items ==>
              var id := g.session.current.value;
              && r.items.Keys == g.items.Keys - {id}
              && |r.items| == |g.items| - 1
              && (forall other :: other in r.items ==> r.items[other] == g.items[other])
              && (|r.items| == 0 ==> r.completions == g.completions + 1)
              && (|r.items| != 0 ==> r.completions == g.completions)
    ensures Active(g) && InDropZone(zone, p) && g.session.current.value !in g.items ==>
              r.items == g.items && r.completions == g.completions
    ensures Active(g) && !InDropZone(zone, p) ==>
              var id := g.session.current.value;
              && r.items.Keys == g.items.Keys
              && r.completions == g.completions
              && (forall other :: other in g.items && other != id ==> r.items[other] == g.items[other])
              && (id in g.items ==>
                    AtRest(r.items[id].style) && r.items[id].style.opacity == Some(FullOpacity)
                    && r.items[id] == g.items[id].(style := r.items[id].style))
  {
    if !Active(g) then g
    else
      var id := g.session.current.value;
      var idle := Session(false, None, g.session.offsetX, g.session.offsetY);
      if InDropZone(zone, p) then
        if id in g.items then
          var remaining := g.items - {id};
          Game(remaining, idle, g.completions + CompletionsScheduled(|remaining|))
        else
          g.(session := idle)
      else if id in g.items then
        g.(items := g.items[id := PutBack(g.items[id])], session := idle)
      else
        g.(session := idle)
  }

  /** `checkAllItemsCollected`: the number of completion effects scheduled
      for a given count of images still in the document. */
  function CompletionsScheduled(remaining: nat): (n: nat)
    ensures n <= 1
    ensures n == 1 <==> remaining == 0
  {
    if remaining == 0 then 1 else 0
  }

  /** A pointer or touch event with its coordinates already extracted (the
      first touch point for a touch event). A move carries the viewport size
      it reads, a release the bag's rectangle at that moment. */
  datatype DragEvent =
    | Press(id: ItemId, at: Point)
    | Drag(at: Point, viewW: int, viewH: int)
    | Release(at: Point, zone: Rect)

  function Apply(g: Game, e: DragEvent): Game {
    match e
    case Press(id, at) => StartDragging(g, id, at)
    case Drag(at, w, h) => MoveDraggedItem(g, at, w, h)
    case Release(at, zone) => StopDragging(g, at, zone)
  }

  /** The game after a sequence of events, in order. */
  function Run(g: Game, evs: seq<DragEvent>): Game
    decreases |evs|
  {
    if |evs| == 0 then g else Run(Apply(g, evs[0]), evs[1..])
  }

  /** The two session flags agree: a drag is in progress exactly when there
      is a current image. */
  predicate Consistent(g: Game) {
    g.session.dragging <==> g.session.current.Some?
  }

  lemma {:induction false} RunStaysConsistent(g: Game, evs: seq<DragEvent>)
    requires Consistent(g)
    ensures Consistent(Run(g, evs))
    decreases |evs|
  {
    if |evs| > 0 {
      RunStaysConsistent(Apply(g, evs[0]), evs[1..]);
    }
  }

  /** Images are only ever removed, never added back, and no handler
      changes an image's place in the page flow or its size. */
  lemma {:induction false} ItemsOnlyLeave(g: Game, evs: seq<DragEvent>)
    ensures Run(g, evs).items.Keys <= g.items.Keys
    ensures forall id :: id in Run(g, evs).items ==>
              && Run(g, evs).items[id].layout == g.items[id].layout
              && Run(g, evs).items[id].width == g.items[id].width
              && Run(g, evs).items[id].height == g.items[id].height
    decreases |evs|
  {
    if |evs| > 0 {
      ItemsOnlyLeave(Apply(g, evs[0]), evs[1..]);
    }
  }

  /** The completion bookkeeping relative to whether the run started with
      images: the effect is scheduled once when the set has been emptied by a
      drop, and never otherwise; a run that started empty stays empty. */
  predicate CompletionAccount(g: Game, startedNonEmpty: bool) {
    && g.completions == (if |g.items| == 0 && startedNonEmpty then 1 else 0)
    && (!startedNonEmpty ==> |g.items| == 0)
  }

  lemma CompletionAccountStep(g: Game, e: DragEvent, startedNonEmpty: bool)
    requires CompletionAccount(g, startedNonEmpty)
    ensures CompletionAccount(Apply(g, e), startedNonEmpty)
  {
    // A drop that removes an image starts from a non-empty set, so nothing
    // had been scheduled before it.
  }

  /** The completion effect is scheduled exactly once over any sequence of
      events from page load, and precisely when the last image has been
      dropped in the bag: at most one, and one exactly when the page started
      with images and none is left. */
  lemma {:induction false} CompletionExactlyOnce(g: Game, evs: seq<DragEvent>)
    requires Initial(g)
    ensures Run(g, evs).completions <= 1
    ensures Run(g, evs).completions == 1 <==> (|g.items| > 0 && |Run(g, evs).items| == 0)
  {
    CompletionAccountRun(g, evs, |g.items| > 0);
  }

  lemma {:induction false} CompletionAccountRun(g: Game, evs: seq<DragEvent>, startedNonEmpty: bool)
    requires CompletionAccount(g, startedNonEmpty)
    ensures CompletionAccount(Run(g, evs), startedNonEmpty)
    decreases |evs|
  {
    if |evs| > 0 {
      CompletionAccountStep(g, evs[0], startedNonEmpty);
      CompletionAccountRun(Apply(g, evs[0]), evs[1..], startedNonEmpty);
    }
  }

  /** Grabbing an image and releasing it at the same point outside the bag
      brings it back to rest at its place in the page flow, ends the session
      (even one that was already in progress) and leaves every other image as
      it was. */
  lemma GrabAndReleaseOutside(g: Game, id: ItemId, p: Point, zone: Rect)
    requires id in g.items && AtRest(g.items[id].style)
    requires !InDropZone(zone, p)
    ensures var r := StopDragging(StartDragging(g, id, p), p, zone);
            && r.items.Keys == g.items.Keys
            && AtRest(r.items[id].style)
            && Origin(r.items[id]) == Origin(g.items[id])
            && (forall other :: other in g.items && other != id ==> r.items[other] == g.items[other])
            && !r.session.dragging && r.session.current == None
            && r.completions == g.completions
  {
  }

  /** A move at the very point of the grab puts the image back at the corner
      it was grabbed at, clamped into the viewport; inside the viewport it
      does not move at all. */
  lemma MoveAtGrabPoint(g: Game, id: ItemId, p: Point, viewW: int, viewH: int)
    requires id in g.items
    ensures var it := g.items[id];
            var r := MoveDraggedItem(StartDragging(g, id, p), p, viewW, viewH);
            && r.items[id].style.left == Some(Clamp(Origin(it).x, 0, viewW - it.width))
            && r.items[id].style.top == Some(Clamp(Origin(it).y, 0, viewH - it.height))
            && (0 <= Origin(it).x <= viewW - it.width && 0 <= Origin(it).y <= viewH - it.height ==>
                  Origin(r.items[id]) == Origin(it))
  {
    // The grab offset cancels the pointer, and the clamp characterisation
    // pins the result to the clamped corner.
  }

  /** Every image other than the one being dragged shows at rest. */
  predicate Settled(g: Game) {
    forall id :: id in g.items && g.session.current != Some(id) ==> AtRest(g.items[id].style)
  }

  /** The image being dragged, when still in the document, shows lifted. */
  predicate Tracked(g: Game) {
    Active(g) && g.session.current.value in g.items ==>
      g.items[g.session.current.value].style.fixed
  }

  /** Grabs that happen only while no drag is in progress. */
  predicate OneGrabAtATime(g: Game, evs: seq<DragEvent>)
    decreases |evs|
  {
    |evs| == 0 ||
    ((evs[0].Press? ==> !Active(g)) && OneGrabAtATime(Apply(g, evs[0]), evs[1..]))
  }

  lemma SettledStep(g: Game, e: DragEvent)
    requires Consistent(g) && Settled(g) && Tracked(g)
    requires e.Press? ==> !Active(g)
    ensures Settled(Apply(g, e)) && Tracked(Apply(g, e))
  {
  }

  /** As long as no image is grabbed while another is being dragged, every
      image other than the current one stays at rest. */
  lemma {:induction false} SettledWhileOneGrabAtATime(g: Game, evs: seq<DragEvent>)
    requires Consistent(g) && Settled(g) && Tracked(g)
    requires OneGrabAtATime(g, evs)
    ensures Settled(Run(g, evs))
    decreases |evs|
  {
    if |evs| > 0 {
      SettledStep(g, evs[0]);
      SettledWhileOneGrabAtATime(Apply(g, evs[0]), evs[1..]);
    }
  }

  /** Without an idle guard, grabbing a second image while the first is still
      being dragged abandons the first one in its lifted look: it is no longer
      the current image, yet it is not at rest. */
  lemma SecondGrabStrandsFirst(g: Game, id: ItemId, p: Point)
    requires Active(g) && Tracked(g)
    requires g.session.current.value in g.items && g.session.current.value != id
    ensures var first := g.session.current.value;
            var r := StartDragging(g, id, p);
            && first in r.items && r.session.current == Some(id)
            && !AtRest(r.items[first].style)
            && !Settled(r)
  {
  }
}

=== FILE: geometry.dfy ===
/** Pixel geometry shared by both mechanics of scrypt.js: clamping into a
    range, the drop-zone hit test, the per-axis proximity test and
    axis-aligned box overlap. Every coordinate is an integer pixel. */
module Geometry {

  datatype Point = Point(x: int, y: int)

  /** A rectangle as a bounding-client-rect reports it: its four edges. */
  datatype Rect = Rect(left: int, top: int, right: int, bottom: int)

  /** A box given by its top-left corner and its size. */
  datatype Box = Box(x: int, y: int, w: int, h: int)

  /** The margin, in pixels, by which the bag's rectangle is grown on every side. */
  const DropTolerance: int := 50

  function Abs(v: int): (r: nat)
    ensures r == v || r == -v
  {
    if v < 0 then -v else v
  }

  function Min(a: int, b: int): int { if a <= b then a else b }

  function Max(a: int, b: int): int { if a >= b then a else b }

  /** What it means for `r` to be `v` clamped into `[lo, hi]`, case by case,
      including the degenerate case `hi < lo` in which the lower bound wins. */
  predicate ClampedTo(r: int, v: int, lo: int, hi: int) {
    && lo <= r
    && (lo <= hi ==> r <= hi)
    && (lo <= v <= hi ==> r == v)
    && (v < lo ==> r == lo)
    && (lo <= hi < v ==> r == hi)
    && (hi < lo ==> r == lo)
  }

  /** `Math.max(lo, Math.min(v, hi))`, the clamp both mechanics use. */
  function Clamp(v: int, lo: int, hi: int): (r: int)
    ensures ClampedTo(r, v, lo, hi)
  {
    Max(lo, Min(v, hi))
  }

  /** The characterisation pins the clamped value down uniquely, so any value
      meeting it is the one `Clamp` computes. */
  lemma ClampedToIsUnique(r: int, v: int, lo: int, hi: int)
    requires ClampedTo(r, v, lo, hi)
    ensures r == Clamp(v, lo, hi)
  {
  }

  /** The rectangle grown by `t` pixels on every side. */
  function Expand(r: Rect, t: int): Rect {
    Rect(r.left - t, r.top - t, r.right + t, r.bottom + t)
  }

  /** Inclusive containment: points on the edges are inside. */
  predicate Contains(r: Rect, p: Point) {
    r.left <= p.x <= r.right && r.top <= p.y <= r.bottom
  }

  /** The drop-zone hit test: the bag's rectangle grown by the tolerance,
      with all four bounds inclusive. */
  function InDropZone(zone: Rect, p: Point): (r: bool)
    ensures r <==> (zone.left - DropTolerance <= p.x <= zone.right + DropTolerance &&
                    zone.top - DropTolerance <= p.y <= zone.bottom + DropTolerance)
  {
    Contains(Expand(zone, DropTolerance), p)
  }

  /** The tolerance reaches exactly 50 pixels beyond each edge: a point on
      the bag is accepted, so is every point at most 50 pixels further out on
      each axis, and a point 51 pixels beyond an edge is refused. */
  lemma DropToleranceReach(zone: Rect, p: Point, dx: int, dy: int)
    requires Contains(zone, p)
    requires Abs(dx) <= DropTolerance && Abs(dy) <= DropTolerance
    ensures InDropZone(zone, Point(p.x + dx, p.y + dy))
    ensures !InDropZone(zone, Point(zone.right + DropTolerance + 1, p.y))
    ensures !InDropZone(zone, Point(p.x, zone.top - DropTolerance - 1))
    ensures !InDropZone(zone, Point(zone.left - DropTolerance - 1, p.y))
    ensures !InDropZone(zone, Point(p.x, zone.bottom + DropTolerance + 1))
  {
  }

  /** The proximity test of the scene: strictly closer than `t` on EACH axis
      separately (an open square around `b`), not a Euclidean distance. */
  predicate Near(a: Point, b: Point, t: int) {
    Abs(a.x - b.x) < t && Abs(a.y - b.y) < t
  }

  /** `Near` is the open square of half-side `t` centred on `b`. */
  lemma NearIsOpenSquare(a: Point, b: Point, t: int)
    ensures Near(a, b, t) <==> (b.x - t < a.x < b.x + t && b.y - t < a.y < b.y + t)
  {
  }

  lemma SquareMonotone(t: int, a: int)
    requires 0 <= t <= a
    ensures t * t <= a * a
  {
    assert t * t <= t * a by {
      assert t * (a - t) >= 0;
    }
    assert t * a <= a * a by {
      assert a * (a - t) >= 0;
    }
  }

  /** Every point strictly inside the Euclidean disc of radius `t` is `Near`,
      so the square test accepts at least what a radial test would. */
  lemma EuclideanImpliesNear(a: Point, b: Point, t: int)
    requires 0 < t
    requires (a.x - b.x) * (a.x - b.x) + (a.y - b.y) * (a.y - b.y) < t * t
    ensures Near(a, b, t)
  {
    var dx, dy := a.x - b.x, a.y - b.y;
    assert dx * dx == Abs(dx) * Abs(dx);
    assert dy * dy == Abs(dy) * Abs(dy);
    assert Abs(dx) < t by {
      if t <= Abs(dx) {
        SquareMonotone(t, Abs(dx));
        assert false;
      }
    }
    assert Abs(dy) < t by {
      if t <= Abs(dy) {
        SquareMonotone(t, Abs(dy));
        assert false;
      }
    }
  }

  /** The converse fails: a corner of the square lies outside the disc. */
  lemma NearIsNotEuclidean()
    ensures Near(Point(99, 99), Point(0, 0), 100)
    ensures 99 * 99 + 99 * 99 >= 100 * 100
  {
  }

  /** Strict overlap of two boxes on both axes: boxes that only touch along
      an edge do not overlap. */
  predicate Overlap(a: Box, b: Box) {
    && a.x < b.x + b.w && a.x + a.w > b.x
    && a.y < b.y + b.h && a.y + a.h > b.y
  }

  /** The pixel whose top-left corner is `p` lies in box `b`. */
  predicate CoversPixel(b: Box, p: Point) {
    b.x <= p.x < b.x + b.w && b.y <= p.y < b.y + b.h
  }

  /** For boxes of positive size, strict overlap means exactly that the boxes
      share at least one pixel. */
  lemma OverlapIffSharedPixel(a: Box, b: Box)
    requires a.w > 0 && a.h > 0 && b.w > 0 && b.h > 0
    ensures Overlap(a, b) <==> exists p :: CoversPixel(a, p) && CoversPixel(b, p)
  {
    if Overlap(a, b) {
      var p := Point(Max(a.x, b.x), Max(a.y, b.y));
      assert CoversPixel(a, p) && CoversPixel(b, p);
    }
  }

}

=== FILE: keys.dfy ===
/** The keyboard state of the exploration scene (scrypt.js lines 258-283):
    a map from lower-cased key names to "held" flags, and the four movement
    directions, each bound to one key of the Latin layout and to the key in
    the same physical place on the Russian (Cyrillic) layout. */
module Keys {

  /** Lower-cases one character the way `toLowerCase` does for the Latin
      letters A-Z and the Cyrillic capitals U+0400-U+042F; any other
      character is left unchanged. */
  function LowerChar(c: char): (r: char)
    ensures 'A' <= c <= 'Z' ==> r as int == c as int + 32
    ensures 'А' <= c <= 'Я' ==> r as int == c as int + 32
    ensures 'Ѐ' <= c <= 'Џ' ==> r as int == c as int + 80
    ensures !('A' <= c <= 'Z' || 'Ѐ' <= c <= 'Я') ==> r == c
  {
    if 'A' <= c <= 'Z' || 'А' <= c <= 'Я' then (c as int + 32) as char
    else if 'Ѐ' <= c <= 'Џ' then (c as int + 80) as char
    else c
  }

  /** Lower-casing is idempotent on every character. */
  lemma LowerCharIdempotent(c: char)
    ensures LowerChar(LowerChar(c)) == LowerChar(c)
  {
  }

  /** `key.toLowerCase()`, character by character. */
  function Lower(s: string): (r: string)
    ensures |r| == |s|
    ensures forall i :: 0 <= i < |s| ==> r[i] == LowerChar(s[i])
  {
    seq(|s|, i requires 0 <= i < |s| => LowerChar(s[i]))
  }

  lemma LowerIdempotent(s: string)
    ensures Lower(Lower(s)) == Lower(s)
  {
    forall i | 0 <= i < |s|
      ensures Lower(Lower(s))[i] == Lower(s)[i]
    {
      LowerCharIdempotent(s[i]);
    }
  }

  /** The scene's `keys` object. A name that was never written reads as not held. */
  type KeyMap = map<string, bool>

  predicate Pressed(keys: KeyMap, name: string) {
    name in keys && keys[name]
  }

  /** The keydown listener: the lower-cased key becomes held, nothing else changes. */
  function KeyDown(keys: KeyMap, key: string): (r: KeyMap)
    ensures Pressed(r, Lower(key))
    ensures forall name :: name != Lower(key) ==> Pressed(r, name) == Pressed(keys, name)
    ensures r.Keys == keys.Keys + {Lower(key)}
  {
    keys[Lower(key) := true]
  }

  /** The keyup listener: the lower-cased key is released, nothing else changes. */
  function KeyUp(keys: KeyMap, key: string): (r: KeyMap)
    ensures !Pressed(r, Lower(key))
    ensures forall name :: name != Lower(key) ==> Pressed(r, name) == Pressed(keys, name)
    ensures r.Keys == keys.Keys + {Lower(key)}
  {
    keys[Lower(key) := false]
  }

  /** A key event is insensitive to case: the upper-case and lower-case
      spellings of a key update the map identically. */
  lemma KeyEventsIgnoreCase(keys: KeyMap, key: string)
    ensures KeyDown(keys, Lower(key)) == KeyDown(keys, key)
    ensures KeyUp(keys, Lower(key)) == KeyUp(keys, key)
  {
    LowerIdempotent(key);
  }

  /** The four movement directions: W/S/A/D on the Latin layout. */
  datatype Dir = Up | Down | Left | Right

  function LatinKey(d: Dir): string {
    match d
    case Up => "w"
    case Down => "s"
    case Left => "a"
    case Right => "d"
  }

  /** The Russian-layout keys in the same physical places: Ц, Ы, Ф, В. */
  function CyrillicKey(d: Dir): string {
    match d
    case Up => "ц"
    case Down => "ы"
    case Left => "ф"
    case Right => "в"
  }

  /** A direction is held when either of its two keys is held. */
  predicate Held(keys: KeyMap, d: Dir) {
    Pressed(keys, LatinKey(d)) || Pressed(keys, CyrillicKey(d))
  }

  /** The eight binding names are pairwise distinct, so each key drives
      exactly one direction. */
  lemma BindingsDistinct(d: Dir, e: Dir)
    ensures LatinKey(d) != CyrillicKey(e)
    ensures LatinKey(d) == LatinKey(e) <==> d == e
    ensures CyrillicKey(d) == CyrillicKey(e) <==> d == e
  {
  }

  /** Both bindings of a direction are equivalent: pressing either one (in
      either case) leaves exactly the same set of directions held. */
  lemma {:induction false} BindingsEquivalent(keys: KeyMap, d: Dir, e: Dir)
    ensures Held(KeyDown(keys, LatinKey(d)), e) == Held(KeyDown(keys, CyrillicKey(d)), e)
    ensures Held(KeyDown(keys, LatinKey(d)), d)
  {
    BindingsDistinct(d, e);
    assert Lower(LatinKey(d)) == LatinKey(d);
    assert Lower(CyrillicKey(d)) == CyrillicKey(d);
  }

  /** The upper-case Latin and Cyrillic keys hold the same direction as
      their lower-case forms. */
  lemma UpperCaseBindings(keys: KeyMap)
    ensures Held(KeyDown(keys, "W"), Up) && Held(KeyDown(keys, "Ц"), Up)
    ensures Held(KeyDown(keys, "S"), Down) && Held(KeyDown(keys, "Ы"), Down)
    ensures Held(KeyDown(keys, "A"), Left) && Held(KeyDown(keys, "Ф"), Left)
    ensures Held(KeyDown(keys, "D"), Right) && Held(KeyDown(keys, "В"), Right)
  {
    assert Lower("W") == "w";
    assert Lower("Ц") == "ц";
    assert Lower("S") == "s";
    assert Lower("Ы") == "ы";
    assert Lower("A") == "a";
    assert Lower("Ф") == "ф";
    assert Lower("D") == "d";
    assert Lower("В") == "в";
  }

  /** Releasing one binding of a direction leaves the direction held exactly
      when its other binding is still pressed. */
  lemma OtherBindingKeepsHeld(keys: KeyMap, d: Dir)
    ensures Held(KeyUp(keys, LatinKey(d)), d) <==> Pressed(keys, CyrillicKey(d))
    ensures Held(KeyUp(keys, CyrillicKey(d)), d) <==> Pressed(keys, LatinKey(d))
  {
    BindingsDistinct(d, d);
    assert Lower(LatinKey(d)) == LatinKey(d);
    assert Lower(CyrillicKey(d)) == CyrillicKey(d);
  }
}

=== FILE: options.dfy ===
/** An optional value: the model's stand-in for JavaScript's `null`, for an
    empty inline style string and for a scene element that is not on the page. */
module Options {

  datatype Option<+T> = None | Some(value: T) {

    /** The wrapped value, or `default` when there is none. */
    function GetOr(default: T): T {
      match this
      case Some(v) => v
      case None => default
    }
  }
}

=== FILE: scene.dfy ===
/** The exploration scene of scrypt.js (lines 225-428): one frame of the
    game loop moves the player by the held directions, clamps it into the
    game area, then runs the collision checks in a fixed order — the pink
    mouse pickup, the graymouse trigger that needs the pink mouse, and the
    poster, date and ale triggers. Each trigger has a latch that is never
    reset, so its effect starts at most once.

    Element geometry is given per frame as integers relative to the game
    area; an element that is not on the page is `None`. Starting an effect is
    recorded in a log rather than performed. */
module Scene {
  import opened Options
  import opened Geometry
  import opened Keys

  /** Pixels moved per frame for each held direction. */
  const Speed: int := 10

  /** Where the player starts. */
  const Spawn: Point := Point(0, 1700)

  /** The four one-shot triggers, listed in the order they are checked. */
  datatype Trigger = Graymouse | Poster | Date | Ale

  /** Per-axis distance below which a trigger fires. */
  function Threshold(t: Trigger): int {
    match t
    case Graymouse => 100
    case Poster => 150
    case Date => 150
    case Ale => 150
  }

  /** Only the graymouse trigger waits for the pink mouse. */
  predicate Gated(t: Trigger) {
    t == Graymouse
  }

  /** What a trigger starts: an optional sound, the image it shows and how
      long, in milliseconds, until that image is hidden again. */
  datatype Effect = Effect(sound: Option<string>, image: string, hideAfterMs: nat)

  function EffectOf(t: Trigger): (e: Effect)
    ensures 5000 <= e.hideAfterMs <= 7000
    ensures e.sound.None? <==> t == Poster
  {
    match t
    case Graymouse => Effect(Some("sounds/mouse_sound.mp3"), "mouses", 7000)
    case Poster => Effect(None, "ticket", 6000)
    case Date => Effect(Some("sounds/mouse_sound.mp3"), "happy", 6000)
    case Ale => Effect(Some("sounds/urur.mp3"), "freddy", 5000)
  }

  /** The page geometry one frame reads: the game area's and the player's
      client sizes (for clamping), the player's bounding size (for the
      pickup), the pink mouse's box, and the top-left corners of the trigger
      objects. */
  datatype Layout = Layout(
    areaW: int, areaH: int,
    playerW: int, playerH: int,
    playerBoxW: int, playerBoxH: int,
    pinkmouse: Option<Box>,
    graymouse: Option<Point>,
    poster: Option<Point>,
    date: Option<Point>,
    ale: Option<Point>)

  function Anchor(layout: Layout, t: Trigger): Option<Point> {
    match t
    case Graymouse => layout.graymouse
    case Poster => layout.poster
    case Date => layout.date
    case Ale => layout.ale
  }

  /** The scene's closure variables: the player's position, the key map,
      whether the pink mouse is still shown, whether it has been picked up,
      the set latches, and the log of effects started, in order. */
  datatype State = State(
    pos: Point,
    keys: KeyMap,
    pinkShown: bool,
    hasPink: bool,
    latched: set<Trigger>,
    fired: seq<Trigger>)

  /** The scene right after it has loaded. */
  const Start: State := State(Spawn, map[], true, false, {}, [])

  /** Signed step on one axis: `Speed` toward `plus` if it alone is held,
      toward `minus` if it alone is held, nothing if both or neither are. */
  function Delta(keys: KeyMap, plus: Dir, minus: Dir): (r: int)
    ensures r == Speed <==> Held(keys, plus) && !Held(keys, minus)
    ensures r == -Speed <==> Held(keys, minus) && !Held(keys, plus)
    ensures r == 0 <==> Held(keys, plus) == Held(keys, minus)
  {
    (if Held(keys, plus) then Speed else 0) - (if Held(keys, minus) then Speed else 0)
  }

  /** The largest coordinates the player may take. */
  function MaxX(layout: Layout): int { layout.areaW - layout.playerW }
  function MaxY(layout: Layout): int { layout.areaH - layout.playerH }

  /** The movement half of `movePlayer`: one `Speed` step per held direction,
      summed without normalisation, then clamped into the game area. */
  function Move(pos: Point, keys: KeyMap, layout: Layout): (r: Point)
    ensures ClampedTo(r.x, pos.x + Delta(keys, Right, Left), 0, MaxX(layout))
    ensures ClampedTo(r.y, pos.y + Delta(keys, Down, Up), 0, MaxY(layout))
    ensures 0 <= r.x && 0 <= r.y
    ensures MaxX(layout) >= 0 ==> r.x <= MaxX(layout)
    ensures MaxY(layout) >= 0 ==> r.y <= MaxY(layout)
  {
    Point(Clamp(pos.x + Delta(keys, Right, Left), 0, MaxX(layout)),
          Clamp(pos.y + Delta(keys, Down, Up), 0, MaxY(layout)))
  }

  /** Holding two perpendicular directions moves a full step on both axes at
      once (the diagonal is not shortened); holding opposite directions
      cancels on that axis. */
  lemma DiagonalNotNormalised(pos: Point, keys: KeyMap, layout: Layout)
    requires Held(keys, Up) && Held(keys, Right) && !Held(keys, Down) && !Held(keys, Left)
    requires 0 <= pos.x + Speed <= MaxX(layout) && 0 <= pos.y - Speed <= MaxY(layout)
    ensures Move(pos, keys, layout) == Point(pos.x + Speed, pos.y - Speed)
  {
  }

  lemma OppositesCancel(pos: Point, keys: KeyMap, layout: Layout)
    requires Held(keys, Left) && Held(keys, Right)
    requires 0 <= pos.x <= MaxX(layout)
    ensures Move(pos, keys, layout).x == pos.x
  {
  }

  /** The player's bounding box at a position. */
  function PlayerBox(pos: Point, layout: Layout): Box {
    Box(pos.x, pos.y, layout.playerBoxW, layout.playerBoxH)
  }

  /** The pink mouse can be picked up: it is on the page, still shown, and
      overlaps the player. */
  predicate CanPickUp(s: State, layout: Layout) {
    && layout.pinkmouse.Some?
    && s.pinkShown
    && Overlap(PlayerBox(s.pos, layout), layout.pinkmouse.value)
  }

  /** The first collision check: touching the pink mouse hides it and sets
      `hasPinkmouse`. */
  function Pickup(s: State, layout: Layout): (r: State)
    ensures r.hasPink <==> s.hasPink || CanPickUp(s, layout)
    ensures r.pinkShown <==> s.pinkShown && !CanPickUp(s, layout)
    ensures r.pos == s.pos && r.keys == s.keys
    ensures r.latched == s.latched && r.fired == s.fired
  {
    if CanPickUp(s, layout) then s.(pinkShown := false, hasPink := true) else s
  }

  /** A trigger fires when its object is on the page, its latch is not yet
      set, its prerequisite (if any) holds, and the player is `Near` it. */
  predicate Fires(s: State, layout: Layout, t: Trigger) {
    && Anchor(layout, t).Some?
    && t !in s.latched
    && (Gated(t) ==> s.hasPink)
    && Near(s.pos, Anchor(layout, t).value, Threshold(t))
  }

  /** One proximity check with its latch setter (`trigger*Event`): sets the
      latch and starts the effect. */
  function Try(s: State, layout: Layout, t: Trigger): (r: State)
    ensures Fires(s, layout, t) ==> r.latched == s.latched + {t} && r.fired == s.fired + [t]
    ensures !Fires(s, layout, t) ==> r == s
    ensures r.pos == s.pos && r.keys == s.keys && r.hasPink == s.hasPink && r.pinkShown == s.pinkShown
  {
    if Fires(s, layout, t) then s.(latched := s.latched + {t}, fired := s.fired + [t]) else s
  }

  function OnlyIf(b: bool, t: Trigger): seq<Trigger> { if b then [t] else [] }

  function OneIf(b: bool, t: Trigger): set<Trigger> { if b then {t} else {} }

  /** The triggers of a set, in checking order. */
  function InOrder(ts: set<Trigger>): seq<Trigger> {
    OnlyIf(Graymouse in ts, Graymouse) + OnlyIf(Poster in ts, Poster) +
    OnlyIf(Date in ts, Date) + OnlyIf(Ale in ts, Ale)
  }

  lemma InOrderMembers(ts: set<Trigger>)
    ensures forall t :: t in InOrder(ts) <==> t in ts
  {
    forall t
      ensures t in InOrder(ts) <==> t in ts
    {
      match t
      case Graymouse =>
      case Poster =>
      case Date =>
      case Ale =>
    }
  }

  /** The triggers that fire when checked against `s`. */
  function Firing(s: State, layout: Layout): (ts: set<Trigger>)
    ensures forall t :: t in ts <==> Fires(s, layout, t)
  {
    OneIf(Fires(s, layout, Graymouse), Graymouse) + OneIf(Fires(s, layout, Poster), Poster) +
    OneIf(Fires(s, layout, Date), Date) + OneIf(Fires(s, layout, Ale), Ale)
  }

  /** Firing one trigger does not change whether another one fires. */
  lemma TryKeepsOthers(s: State, layout: Layout, t: Trigger, u: Trigger)
    requires t != u
    ensures Fires(Try(s, layout, t), layout, u) <==> Fires(s, layout, u)
  {
  }

  /** One check adds its trigger to the latches and the log exactly when it fires. */
  lemma TryStep(s: State, layout: Layout, t: Trigger)
    ensures var r := Try(s, layout, t);
            && r.latched == s.latched + OneIf(Fires(s, layout, t), t)
            && r.fired == s.fired + OnlyIf(Fires(s, layout, t), t)
            && r.pos == s.pos && r.keys == s.keys
            && r.hasPink == s.hasPink && r.pinkShown == s.pinkShown
  {
  }

  /** The four checks in their fixed order. */
  function TryAll(p: State, layout: Layout): State {
    Try(Try(Try(Try(p, layout, Graymouse), layout, Poster), layout, Date), layout, Ale)
  }

  /** Four steps that each add at most one trigger, composed. */
  lemma Chain(p: State, g: State, q: State, d: State, a: State, fg: bool, fp: bool, fd: bool, fa: bool)
    requires g.latched == p.latched + OneIf(fg, Graymouse) && g.fired == p.fired + OnlyIf(fg, Graymouse)
    requires q.latched == g.latched + OneIf(fp, Poster) && q.fired == g.fired + OnlyIf(fp, Poster)
    requires d.latched == q.latched + OneIf(fd, Date) && d.fired == q.fired + OnlyIf(fd, Date)
    requires a.latched == d.latched + OneIf(fa, Ale) && a.fired == d.fired + OnlyIf(fa, Ale)
    ensures a.latched == p.latched + (OneIf(fg, Graymouse) + OneIf(fp, Poster) + OneIf(fd, Date) + OneIf(fa, Ale))
    ensures a.fired == p.fired + (OnlyIf(fg, Graymouse) + OnlyIf(fp, Poster) + OnlyIf(fd, Date) + OnlyIf(fa, Ale))
  {
  }

  /** Running the four checks in order adds exactly the triggers that fire
      against the state they start from, and logs them in checking order. */
  lemma {:induction false} TriesInOrder(p: State, layout: Layout)
    ensures var a := TryAll(p, layout);
            && a.latched == p.latched + Firing(p, layout)
            && a.fired == p.fired + InOrder(Firing(p, layout))
            && a.pos == p.pos && a.keys == p.keys
            && a.hasPink == p.hasPink && a.pinkShown == p.pinkShown
  {
    var g := Try(p, layout, Graymouse);
    var q := Try(g, layout, Poster);
    var d := Try(q, layout, Date);
    var a := Try(d, layout, Ale);
    var fg, fp, fd, fa :=
      Fires(p, layout, Graymouse), Fires(p, layout, Poster), Fires(p, layout, Date), Fires(p, layout, Ale);
    TryKeepsOthers(p, layout, Graymouse, Poster);
    TryKeepsOthers(p, layout, Graymouse, Date);
    TryKeepsOthers(p, layout, Graymouse, Ale);
    TryKeepsOthers(g, layout, Poster, Date);
    TryKeepsOthers(g, layout, Poster, Ale);
    TryKeepsOthers(q, layout, Date, Ale);
    TryStep(p, layout, Graymouse);
    TryStep(g, layout, Poster);
    TryStep(q, layout, Date);
    TryStep(d, layout, Ale);
    Chain(p, g, q, d, a, fg, fp, fd, fa);
    InOrderFiring(p, layout);
  }

  lemma InOrderFiring(p: State, layout: Layout)
    ensures var fg, fp, fd, fa :=
              Fires(p, layout, Graymouse), Fires(p, layout, Poster), Fires(p, layout, Date), Fires(p, layout, Ale);
            && Firing(p, layout) == OneIf(fg, Graymouse) + OneIf(fp, Poster) + OneIf(fd, Date) + OneIf(fa, Ale)
            && InOrder(Firing(p, layout)) == OnlyIf(fg, Graymouse) + OnlyIf(fp, Poster) + OnlyIf(fd, Date) + OnlyIf(fa, Ale)
  {
    var ts := Firing(p, layout);
    assert Graymouse in ts <==> Fires(p, layout, Graymouse);
    assert Poster in ts <==> Fires(p, layout, Poster);
    assert Date in ts <==> Fires(p, layout, Date);
    assert Ale in ts <==> Fires(p, layout, Ale);
  }

  /** `checkCollisions`: the pickup first, then each trigger in order. A
      trigger fires in this frame exactly when its object is near, its latch
      was clear, and — for the graymouse — the pink mouse is held, counting a
      pickup earlier in the same frame; effects start in checking order. */
  function CheckCollisions(s: State, layout: Layout): (r: State)
    ensures r.pos == s.pos && r.keys == s.keys
    ensures r.hasPink <==> s.hasPink || CanPickUp(s, layout)
    ensures r.pinkShown <==> s.pinkShown && !CanPickUp(s, layout)
    ensures s.latched <= r.latched
    ensures forall t :: t in r.latched - s.latched <==>
              && t !in s.latched
              && Anchor(layout, t).Some?
              && (Gated(t) ==> r.hasPink)
              && Near(s.pos, Anchor(layout, t).value, Threshold(t))
    ensures r.fired == s.fired + InOrder(r.latched - s.latched)
  {
    var p := Pickup(s, layout);
    TriesInOrder(p, layout);
    var a := TryAll(p, layout);
    assert a.latched - s.latched == Firing(p, layout);
    a
  }

  /** One frame of the game loop: `movePlayer`, which ends by running
      `checkCollisions` at the new position. */
  function Frame(s: State, layout: Layout): (r: State)
    ensures r.pos == Move(s.pos, s.keys, layout)
    ensures 0 <= r.pos.x && 0 <= r.pos.y
    ensures MaxX(layout) >= 0 ==> r.pos.x <= MaxX(layout)
    ensures MaxY(layout) >= 0 ==> r.pos.y <= MaxY(layout)
    ensures s.latched <= r.latched && (s.hasPink ==> r.hasPink)
    ensures Graymouse in r.latched - s.latched ==> r.hasPink
  {
    CheckCollisions(s.(pos := Move(s.pos, s.keys, layout)), layout)
  }

  /** A pickup and the gated trigger it unlocks can happen in the same frame,
      because the pickup is checked first. */
  lemma PickupUnlocksSameFrame(s: State, layout: Layout)
    requires !s.hasPink && Graymouse !in s.latched
    requires CanPickUp(s, layout)
    requires layout.graymouse.Some? && Near(s.pos, layout.graymouse.value, 100)
    ensures var r := CheckCollisions(s, layout);
            r.hasPink && Graymouse in r.latched && r.fired[|s.fired|] == Graymouse
  {
  }

  /** Events reaching the scene: key presses and releases, and animation frames. */
  datatype SceneEvent = KeyPress(key: string) | KeyRelease(key: string) | Tick(layout: Layout)

  function Apply(s: State, e: SceneEvent): State {
    match e
    case KeyPress(k) => s.(keys := KeyDown(s.keys, k))
    case KeyRelease(k) => s.(keys := KeyUp(s.keys, k))
    case Tick(layout) => Frame(s, layout)
  }

  function Run(s: State, evs: seq<SceneEvent>): State
    decreases |evs|
  {
    if |evs| == 0 then s else Run(Apply(s, evs[0]), evs[1..])
  }

  /** Latches are never cleared and the pink mouse is never given back. */
  lemma {:induction false} LatchesNeverCleared(s: State, evs: seq<SceneEvent>)
    ensures s.latched <= Run(s, evs).latched
    ensures s.hasPink ==> Run(s, evs).hasPink
    decreases |evs|
  {
    if |evs| > 0 {
      LatchesNeverCleared(Apply(s, evs[0]), evs[1..]);
    }
  }

  predicate NoRepeats(xs: seq<Trigger>) {
    forall i, j :: 0 <= i < j < |xs| ==> xs[i] != xs[j]
  }

  /** The effect log agrees with the latches and holds no trigger twice, and
      the graymouse latch is only ever set with the pink mouse in hand. */
  predicate Sound(s: State) {
    && (forall t :: t in s.fired <==> t in s.latched)
    && NoRepeats(s.fired)
    && (Graymouse in s.latched ==> s.hasPink)
  }

  lemma InOrderNoRepeats(ts: set<Trigger>)
    ensures NoRepeats(InOrder(ts))
  {
  }

  lemma AppendNoRepeats(xs: seq<Trigger>, ys: seq<Trigger>)
    requires NoRepeats(xs) && NoRepeats(ys)
    requires forall t :: t in xs ==> t !in ys
    ensures NoRepeats(xs + ys)
  {
    forall i, j | 0 <= i < j < |xs + ys|
      ensures (xs + ys)[i] != (xs + ys)[j]
    {
      if i < |xs| && |xs| <= j {
        assert (xs + ys)[i] in xs;
        assert (xs + ys)[j] in ys;
      }
    }
  }

  lemma SoundStep(s: State, e: SceneEvent)
    requires Sound(s)
    ensures Sound(Apply(s, e))
  {
    if e.Tick? {
      var m := s.(pos := Move(s.pos, s.keys, e.layout));
      var r := CheckCollisions(m, e.layout);
      var added := r.latched - m.latched;
      InOrderMembers(added);
      InOrderNoRepeats(added);
      AppendNoRepeats(m.fired, InOrder(added));
    }
  }

  /** Over any sequence of events from a sound state — in particular from
      the start of the scene — each effect has been started at most once,
      exactly the latched triggers have started, and the graymouse has only
      started once the pink mouse was picked up. */
  lemma {:induction false} EffectsFireAtMostOnce(s: State, evs: seq<SceneEvent>)
    requires Sound(s)
    ensures Sound(Run(s, evs))
    ensures forall i, j :: 0 <= i < j < |Run(s, evs).fired| ==>
              Run(s, evs).fired[i] != Run(s, evs).fired[j]
    decreases |evs|
  {
    if |evs| > 0 {
      SoundStep(s, evs[0]);
      EffectsFireAtMostOnce(Apply(s, evs[0]), evs[1..]);
    }
  }

  /** Every started effect shows its own image, so in a sound state no image
      is shown by two started effects. */
  lemma ShownImagesDistinct(s: State)
    requires Sound(s)
    ensures forall i, j :: 0 <= i < j < |s.fired| ==>
              EffectOf(s.fired[i]).image != EffectOf(s.fired[j]).image
  {
    forall i, j | 0 <= i < j < |s.fired|
      ensures EffectOf(s.fired[i]).image != EffectOf(s.fired[j]).image
    {
      assert s.fired[i] != s.fired[j];
    }
  }

  lemma StartIsSound()
    ensures Sound(Start)
  {
  }

  /** The player stays inside the game area after every frame of any run,
      whatever keys are pressed in between. */
  lemma {:induction false} StaysInArea(s: State, evs: seq<SceneEvent>, layout: Layout)
    requires |evs| > 0 && evs[|evs| - 1] == Tick(layout)
    requires MaxX(layout) >= 0 && MaxY(layout) >= 0
    ensures 0 <= Run(s, evs).pos.x <= MaxX(layout)
    ensures 0 <= Run(s, evs).pos.y <= MaxY(layout)
    decreases |evs|
  {
    if |evs| > 1 {
      assert evs[1..][|evs[1..]| - 1] == evs[|evs| - 1];
      StaysInArea(Apply(s, evs[0]), evs[1..], layout);
    }
  }

  /** `n` frames with the same keys and geometry. */
  function Frames(s: State, layout: Layout, n: nat): State
    decreases n
  {
    if n == 0 then s else Frames(Frame(s, layout), layout, n - 1)
  }

  /** Holding only "right" moves the player `Speed` pixels per frame until it
      reaches the right edge, where it stays. */
  lemma {:induction false} HoldRight(s: State, layout: Layout, n: nat)
    requires Held(s.keys, Right) && !Held(s.keys, Left)
    requires 0 <= s.pos.x <= MaxX(layout)
    ensures Frames(s, layout, n).pos.x == Min(s.pos.x + Speed * n, MaxX(layout))
    ensures Frames(s, layout, n).keys == s.keys
    decreases n
  {
    if n > 0 {
      var s1 := Frame(s, layout);
      assert s1.pos.x == Min(s.pos.x + Speed, MaxX(layout));
      HoldRight(s1, layout, n - 1);
    }
  }
}
